=== FILE: README.md ===
# sysbox `calc`: a Dafny model of the calculator subcommand

The `calc` subcommand of sysbox evaluates arithmetic expressions. With
arguments (`sysbox calc 3 + 3`) it joins them with spaces, evaluates the
result once and exits 0, or 1 on a parse error. Without arguments it runs a
read-eval loop on standard input behind a `calc> ` prompt. It ends on a
line that, once trimmed, starts with `exit` or `quit`, at end of input, or
at the first line that fails to parse.

Go's own parser (`go/parser.ParseExpr`) turns the text into a syntax tree. A
small recursive evaluator walks that tree. It handles binary expressions,
number literals and parenthesised expressions. It applies `+ - * /` to
float64 values. It computes `%` on the operands truncated to integers. It
calls `os.Exit(1)` on any other node, literal kind or operator. A result
equal to its integer conversion is printed with `%d`, any other with `%f`.

The model has these modules:

- `CalcAst` (calc_ast.dfy): the part of Go's syntax tree the evaluator
  inspects, plus structural predicates (`Supported`, `HasRem`, `HasParen`).
- `CalcEval` (calc_eval.dfy): `eval` and `evalBinaryExpr` over an abstract
  number type `N`. The float64 operations it needs are fields of a record
  `Arith<N>`. The outcome is `Value(v)` or `Stopped(Exit1 | Panic)`.
- `GoNumeric` (go_numeric.dfy): Go's truncating conversion `int(x)` on reals,
  and Go's truncated integer quotient and remainder. Dafny's own `%` is
  Euclidean, so these are written out.
- `CalcEvaluate` (calc_evaluate.dfy): `Evaluate`, meaning parse through an
  oracle, evaluate, then choose the display.
- `GoStrings` (go_strings.dfy): `strings.TrimSpace` with Go's
  `unicode.IsSpace` set, and `strings.HasPrefix`.
- `CalcSession` (calc_session.dfy): `Execute`. It covers the argument join,
  the choice between batch mode and the loop, and the loop itself as a pure
  fold over the action each input line calls for.
- `CalcExamples` (calc_examples.dfy): behaviour on concrete inputs, over an
  exact real-number instance of the arithmetic.

The evaluator returns no errors. An unsupported node, literal kind or
operator ends the whole process with `os.Exit(1)` (`Terminated(Exit1)` in
the model). In the loop, the first parse error returns 1
(cmd_calc.go:195-198), so no later line is read.

## Model

| member | source | states |
|---|---|---|
| GoNumeric.Trunc | cmd_calc.go:93 | `int(x)` drops the fraction toward zero: for x ≥ 0, n ≤ x < n+1; for x < 0, n−1 < x ≤ n |
| GoNumeric.TruncDiv | cmd_calc.go:93 | the quotient Go's `%` is defined against: its magnitude is ⌊\|a\|/\|b\|⌋, and a non-zero quotient is negative exactly when the operand signs differ |
| GoNumeric.TruncRem | cmd_calc.go:93 | Go's integer `%`: a = (a/b)·b + r with \|r\| < \|b\|, and a non-zero r has the sign of the dividend |
| GoNumeric.TruncRemUnique | cmd_calc.go:93 | only one quotient and remainder satisfy that law, so the remainder is fully determined by it |
| CalcAst.StripParens | cmd_calc.go:64-65 | removing every parenthesised node leaves no parentheses, and keeps both the supported-node and remainder structure of the tree |
| CalcEval.Eval | cmd_calc.go:45-74 | a value is produced only for a tree whose every node is supported; `Exit1` only for a tree with an unsupported node, literal kind or operator; `Panic` only for a tree that contains a remainder |
| CalcEval.EvalBinaryExpr | cmd_calc.go:78-99 | the same three guarantees as `Eval` for a binary expression: a value only when both operands and the operator are supported, `Exit1` only when something in it is not, `Panic` only when it holds a remainder (the left-first order is stated by `LeftStopWins` and `RightStopWins`) |
| CalcEval.Apply | cmd_calc.go:82-98 | the operator switch: `Exit1` exactly for an operator outside the five; `Panic` exactly for a remainder whose truncated divisor is 0; ADD/SUB/MUL/QUO give the matching float operation; REM gives float64 of the truncated remainder of the truncated operands |
| CalcEval.ParenTransparent | cmd_calc.go:64-65 | a parenthesised expression has exactly the outcome of its inner expression |
| CalcEval.StripParensPreservesEval | cmd_calc.go:64-65 | removing all parentheses, at any depth, never changes an outcome |
| CalcEval.LeftStopWins | cmd_calc.go:79-80 | if the left operand exits or panics, the binary expression stops the same way, whatever the operator and right operand are |
| CalcEval.RightStopWins | cmd_calc.go:79-80 | if the left operand has a value and the right one stops, that stop propagates unchanged, whatever the operator is |
| CalcEval.BinaryOnValues | cmd_calc.go:82-97 | on two operand values, each of the five operators gives its arithmetic result, a zero truncated divisor of `%` panics, and any other operator exits |
| CalcEval.RemSeesTruncations | cmd_calc.go:91-93 | `%` depends on its operands only through their truncations, so `7.9 % 2` and `7 % 2` agree |
| CalcEval.RemFreeOutcome | cmd_calc.go:45-99 | a tree without a remainder has a value exactly when it is fully supported, and exits exactly when it is not |
| CalcEvaluate.Show | cmd_calc.go:121-129 | a value is printed as an integer exactly when converting it to `int` and back gives it again, and that integer converts back to the value; otherwise it is printed as a float |
| CalcEvaluate.Evaluate | cmd_calc.go:102-132 | an error is returned exactly when parsing fails, and it names the input; a halt happens only on a parsed tree whose evaluation stops; a print happens only on a parsed tree with a value, and shows that value |
| CalcEvaluate.ParsedNeverErrs | cmd_calc.go:107-131 | once the input parses, `Evaluate` never returns an error; a fully supported tree without remainder always prints; only a fully supported tree prints |
| GoStrings.Latin1Spaces | cmd_calc.go:176 | below U+0100 the white space `TrimSpace` removes is exactly tab, newline, vertical tab, form feed, carriage return, space, U+0085 and U+00A0 |
| GoStrings.LeadingSpaces | cmd_calc.go:176 | the count covers only white space and stops at the first non-space character |
| GoStrings.TrailingSpaces | cmd_calc.go:176 | the count covers only white space and stops at the last non-space character |
| GoStrings.TrimSpace | cmd_calc.go:176 | the trimmed line is empty exactly when the line is all white space; otherwise it starts and ends with a non-space character |
| GoStrings.TrimSpaceIsSlice | cmd_calc.go:176 | the trimmed line is a slice of the line with only white space cut before and after it |
| GoStrings.TrimSpaceKeepsTrimmed | cmd_calc.go:176 | a line that neither starts nor ends with white space is returned unchanged |
| GoStrings.TrimSpaceIdempotent | cmd_calc.go:176 | trimming twice is trimming once |
| GoStrings.HasPrefixSplit | cmd_calc.go:181-182 | a string has a prefix exactly when it is that prefix followed by something |
| CalcSession.Spaced | cmd_calc.go:140-145 | the joined input is empty exactly when there are no arguments, and otherwise ends in a space |
| CalcSession.SpacedSnoc | cmd_calc.go:142-145 | one more argument appends that argument and one space to the joined input |
| CalcSession.JoinArgs | cmd_calc.go:140-145 | the append loop builds exactly every argument followed by one space |
| CalcSession.FieldsOfSpaced | cmd_calc.go:140-145 | when no argument contains a space, splitting the joined input at its spaces gives the arguments back |
| CalcSession.Step | cmd_calc.go:175-199 | a trimmed line with an `exit`/`quit` prefix quits, whatever else it holds; otherwise an all-white-space line is skipped; every other line is evaluated; a failing line carries its trimmed text and failed to parse; a printing or halting line reflects `Evaluate` on the trimmed text |
| CalcSession.QuitCommandExtends | cmd_calc.go:181-182 | a trimmed line that starts with `exit` or `quit` still quits whatever follows it |
| CalcSession.QuitCommandExamples | cmd_calc.go:181-182 | on a trimmed line, `exit`, `exiting` and `quit now` quit; `Exit`, `ex` and `qui` do not, since the test is a case-sensitive prefix test |
| CalcExamples.TrimExamples | cmd_calc.go:176 | `TrimSpace` turns ` quit` into `quit` and a tab-led `exit now ` into `exit now`, keeping the inner space |
| CalcExamples.TrimmedQuitSteps | cmd_calc.go:175-183 | the raw lines ` quit` and a tab-led `exit now ` both quit, because the prefix test runs after trimming |
| CalcSession.EndStatus | cmd_calc.go:181-198 | a quit returns 0, a parse error returns 1, and a stop in the evaluator ends the process with that same stop |
| CalcSession.Repl | cmd_calc.go:164-211 | at end of input the loop returns 0 with one prompt per line plus the first; ended at line k it has shown k+1 prompts; it only ever returns 0 or 1; one output line is recorded per evaluated line, except a line whose evaluation panics; a result, a parse-error line, or the diagnostic printed before `os.Exit(1)` |
| CalcSession.Loop | cmd_calc.go:169-201 | the loop over the per-line actions: run to the end it returns 0 after one prompt per line plus the first; ended at action k it has shown k+1 prompts; it only ever returns 0 or 1; one output line is recorded per evaluated line, except a line whose evaluation panics; a result, a parse-error line, or the diagnostic printed before `os.Exit(1)` |
| CalcSession.LoopStopsAtFirstEnd | cmd_calc.go:170-201 | the loop runs to the end exactly when no action ends it; otherwise it stops at the first action that ends it, with the status that action calls for |
| CalcSession.LoopEvaluatedCount | cmd_calc.go:181-199 | the evaluated count is the number of consumed actions that handed their line to `Evaluate` |
| CalcSession.LoopIgnoresRest | cmd_calc.go:181-198 | actions after the one that ends the loop are never looked at |
| CalcSession.LoopOut | cmd_calc.go:181-199 | the loop prints, in line order, exactly the results, error lines and exit diagnostics of the consumed actions, nothing from the lines after the one that ended it |
| CalcSession.ReplOut | cmd_calc.go:170-201 | the same, read on the input lines: the output is what the steps of the consumed lines print |
| CalcSession.ReplStopsAtFirstEnd | cmd_calc.go:170-211 | the loop runs to end of input exactly when no line ends it; otherwise it stops at the first line that ends it, with the status that line calls for |
| CalcSession.ReplEvaluatedCount | cmd_calc.go:181-199 | the number of lines handed to `Evaluate` equals the number of consumed lines that are neither blank nor a quit command |
| CalcSession.ReplIgnoresRest | cmd_calc.go:181-198 | after the line that ends the loop, no further input is read: appending lines changes nothing |
| CalcSession.Execute | cmd_calc.go:135-212 | batch mode runs exactly when there is at least one argument, on the joined input; batch returns 1 exactly when parsing fails and then prints one error line naming the input; it returns 0 exactly when a result is printed, and then prints only that result; otherwise the evaluator ends the process with its own stop, after printing one diagnostic line if it exits and nothing if it panics; without arguments the loop runs on the input lines |
| CalcExamples.TruncatedRemainderExamples | cmd_calc.go:93 | `int(7.9)` is 7, `int(-7.9)` is −7, `7 % 2` is 1, `-7 % 2` is −1 and `7 % -2` is 1 |
| CalcExamples.RemainderDropsFraction | cmd_calc.go:91-93 | `7.9 % 2` and `7 % 2` both evaluate to 1 |
| CalcExamples.PrecedenceExamples | cmd_calc.go:78-90 | the trees of `2 + 3 * 4` and `(2 + 3) * 4` evaluate to 14 and 20, and 14 is printed as an integer |
| CalcExamples.DisplayExamples | cmd_calc.go:102-129 | `Evaluate` on `6 / 3` prints the integer 2, and on `1 / 3` prints 1/3 in fixed-point notation |
| CalcExamples.HelpExample | cmd_calc.go:36-37 | the help text's `sysbox calc '1 / 3 * 9'` joins to `1 / 3 * 9 `, prints 3 and returns 0 |
| CalcExamples.BatchExample | cmd_calc.go:140-159 | the arguments `3`, `+`, `3` are joined to `3 + 3 `; 6 is printed and 0 returned |
| CalcExamples.EmptyArgumentIsBatch | cmd_calc.go:140-152 | a single empty argument still selects batch mode, on the input `" "` |
| CalcExamples.InteractiveExample | cmd_calc.go:169-201 | lines `1 + 1`, an empty line and `exit now` print 2, show three prompts and return 0 at the third line |
| CalcExamples.ParseErrorEndsLoop | cmd_calc.go:194-198 | a line that fails to parse ends the loop with 1 and one error line, whatever input follows |
| CalcExamples.UnaryMinusExits | cmd_calc.go:67-69 | `-3 + 2` parses to a unary expression, which prints one diagnostic and ends the process with exit status 1 instead of reporting an error |

## Left out

- `go/parser.ParseExpr` is an oracle `parse: string -> Option<Expr>` in the
  environment. Go's expression grammar and precedence belong to it, so the
  precedence examples fix the tree the parser returns. The parser's error
  text is not modelled either; an error keeps only the input it names.
- `strconv.ParseFloat` is the `literal` field of `Arith`. Its error is
  discarded at cmd_calc.go:56, so the field is a total function.
- IEEE-754 arithmetic is not modelled: rounding, overflow, division by zero
  giving an infinity or NaN, and `int(x)` of an out-of-range or non-finite
  value. The operations and conversions are fields of `Arith<N>`. The real
  instance in `CalcExamples` is exact and leaves division as a parameter.
- Go's `int` is 32 or 64 bits wide, by platform. The model's `int` is
  unbounded. At either width the only edge case of `%` is the most negative
  value `% -1`, which Go defines as 0; the unbounded remainder is also 0
  there. Out-of-range conversions are inside `trunc`.
- Float comparison is the equality of `N`. In Go, `res == float64(int(res))`
  at cmd_calc.go:121 holds for −0.0, which is printed as `0`. An instance
  of `N` must identify −0 and +0 for `Show` to agree. The model's `real`
  instance has no negative zero.
- The text of the output is not modelled: `%d`/`%f` formatting, the `ERROR:`
  message, the wording of the diagnostic printed before `os.Exit(1)`
  (cmd_calc.go:59, 68 and 96), and the prompt text. The model records what
  is shown (an integer, a float, an error naming the input, or that one
  diagnostic line was printed) and counts the prompts. A panic's message
  goes to standard error and is not recorded.
- `bufio.Scanner` is replaced by the given sequence of lines. Its line
  splitting, its token size limit and the logging of a read error at
  cmd_calc.go:204-206 are not modelled. Strings are sequences of code
  points, so invalid UTF-8 is not modelled.
- What happens after `Execute` returns or the process exits is not modelled.
  That includes how the status is turned into the process exit code, and the
  runtime's exit code on a panic.
- The `subcommands` glue (`calcCommand`, `Info` and its help text) is not
  part of this model, and neither is cmd_http_get.go, a network fetch with
  no logic to verify.

=== FILE: calc_ast.dfy ===
/**
 The part of Go's expression syntax tree (`go/ast`) that the calculator's
 evaluator inspects. The parser may hand it any expression node; the
 evaluator distinguishes a binary expression, a basic literal and a
 parenthesised expression, and treats every other node kind alike.
 */
module CalcAst {

  datatype Option<+T> = None | Some(value: T)

  /** The `token` kinds a basic literal can carry. */
  datatype LitKind = Int | Float | Imag | Char | String

  /** The `token` kinds of Go's binary operators. */
  datatype Op =
    | Add | Sub | Mul | Quo | Rem
    | And | Or | Xor | Shl | Shr | AndNot
    | LAnd | LOr
    | Eql | Neq | Lss | Leq | Gtr | Geq

  datatype Expr =
    | Binary(bin: BinaryExpr)
    | BasicLit(kind: LitKind, text: string)
    | Paren(inner: Expr)
      /** Any other node: an identifier, a unary or call expression, ... */
    | OtherNode(name: string)

  datatype BinaryExpr = BinaryExpr(x: Expr, op: Op, y: Expr)

  predicate IsNumberKind(k: LitKind) {
    k == Int || k == Float
  }

  predicate IsArithOp(op: Op) {
    op == Add || op == Sub || op == Mul || op == Quo || op == Rem
  }

  /** Every node of `e` is one the evaluator knows how to handle. */
  predicate Supported(e: Expr) {
    match e
    case Binary(BinaryExpr(x, op, y)) => IsArithOp(op) && Supported(x) && Supported(y)
    case BasicLit(kind, _) => IsNumberKind(kind)
    case Paren(inner) => Supported(inner)
    case OtherNode(_) => false
  }

  /** Some binary node of `e` is a remainder. */
  predicate HasRem(e: Expr) {
    match e
    case Binary(BinaryExpr(x, op, y)) => op == Rem || HasRem(x) || HasRem(y)
    case BasicLit(_, _) => false
    case Paren(inner) => HasRem(inner)
    case OtherNode(_) => false
  }

  predicate HasParen(e: Expr) {
    match e
    case Binary(BinaryExpr(x, _, y)) => HasParen(x) || HasParen(y)
    case BasicLit(_, _) => false
    case Paren(_) => true
    case OtherNode(_) => false
  }

  /** `e` with every parenthesised expression replaced by its inner expression. */
  function StripParens(e: Expr): (r: Expr)
    ensures !HasParen(r)
    ensures Supported(r) <==> Supported(e)
    ensures HasRem(r) <==> HasRem(e)
  {
    match e
    case Binary(BinaryExpr(x, op, y)) => Binary(BinaryExpr(StripParens(x), op, StripParens(y)))
    case BasicLit(_, _) => e
    case Paren(inner) => StripParens(inner)
    case OtherNode(_) => e
  }
}

=== FILE: calc_eval.dfy ===
/**
 The calculator's tree-walking evaluator (`eval` and `evalBinaryExpr`).

 The number type is a parameter `N` standing for Go's float64: the
 operations the evaluator applies to it are gathered in an `Arith<N>`
 record, so no floating-point rounding rule is assumed. Where the Go code
 calls `os.Exit(1)` the evaluation stops with `Exit1`; where Go's integer
 `%` would panic on a zero divisor it stops with `Panic`.
 */
module CalcEval {
  import opened CalcAst
  import opened GoNumeric

  /** The float64 operations `eval` uses. `literal` is `strconv.ParseFloat`
      with its error discarded, `trunc` is the conversion `int(x)` and
      `ofInt` the conversion `float64(n)`. */
  datatype Arith<!N> = Arith(
    literal: string -> N,
    add: (N, N) -> N,
    sub: (N, N) -> N,
    mul: (N, N) -> N,
    quo: (N, N) -> N,
    trunc: N -> int,
    ofInt: int -> N)

  /** How an evaluation ends without a value: a call to `os.Exit(1)`, or a
      run-time panic of the integer remainder. */
  datatype Stop = Exit1 | Panic

  datatype Outcome<N> = Value(v: N) | Stopped(stop: Stop)

  /** `eval`: the value of `e`, or how the evaluation stopped. */
  function Eval<N>(A: Arith<N>, e: Expr): (r: Outcome<N>)
    ensures r.Value? ==> Supported(e)
    ensures r == Stopped(Exit1) ==> !Supported(e)
    ensures r == Stopped(Panic) ==> HasRem(e)
    decreases e
  {
    match e
    case Binary(b) => EvalBinaryExpr(A, b)
    case BasicLit(kind, text) =>
      if IsNumberKind(kind) then Value(A.literal(text)) else Stopped(Exit1)
    case Paren(inner) => Eval(A, inner)
    case OtherNode(_) => Stopped(Exit1)
  }

  /** `evalBinaryExpr`: both operands are evaluated, left first, before the
      operator is examined. */
  function EvalBinaryExpr<N>(A: Arith<N>, b: BinaryExpr): (r: Outcome<N>)
    ensures r.Value? ==> Supported(Binary(b))
    ensures r == Stopped(Exit1) ==> !Supported(Binary(b))
    ensures r == Stopped(Panic) ==> HasRem(Binary(b))
    decreases b
  {
    match Eval(A, b.x)
    case Stopped(s) => Stopped(s)
    case Value(left) =>
      match Eval(A, b.y)
      case Stopped(s) => Stopped(s)
      case Value(right) => Apply(A, b.op, left, right)
  }

  /** The operator switch of `evalBinaryExpr` on two computed operands. */
  function Apply<N>(A: Arith<N>, op: Op, left: N, right: N): (r: Outcome<N>)
    ensures r == Stopped(Exit1) <==> !IsArithOp(op)
    ensures r == Stopped(Panic) <==> op == Rem && A.trunc(right) == 0
    ensures op == Add ==> r == Value(A.add(left, right))
    ensures op == Sub ==> r == Value(A.sub(left, right))
    ensures op == Mul ==> r == Value(A.mul(left, right))
    ensures op == Quo ==> r == Value(A.quo(left, right))
    ensures op == Rem && A.trunc(right) != 0 ==>
              r == Value(A.ofInt(TruncRem(A.trunc(left), A.trunc(right))))
  {
    match op
    case Add => Value(A.add(left, right))
    case Sub => Value(A.sub(left, right))
    case Mul => Value(A.mul(left, right))
    case Quo => Value(A.quo(left, right))
    case Rem =>
      var a, d := A.trunc(left), A.trunc(right);
      if d == 0 then Stopped(Panic) else Value(A.ofInt(TruncRem(a, d)))
    case _ => Stopped(Exit1)
  }

  /** A parenthesised expression evaluates exactly as its inner expression. */
  lemma ParenTransparent<N>(A: Arith<N>, inner: Expr)
    ensures Eval(A, Paren(inner)) == Eval(A, inner)
  {
  }

  /** Parentheses never change an outcome, however deeply they are nested. */
  lemma {:induction false} StripParensPreservesEval<N>(A: Arith<N>, e: Expr)
    ensures Eval(A, StripParens(e)) == Eval(A, e)
    decreases e
  {
    match e
    case Binary(BinaryExpr(x, op, y)) =>
      StripParensPreservesEval(A, x);
      StripParensPreservesEval(A, y);
    case BasicLit(_, _) =>
    case Paren(inner) =>
      StripParensPreservesEval(A, inner);
    case OtherNode(_) =>
  }

  /** The left operand is evaluated first: if it stops, the whole binary
      expression stops the same way, whatever the operator and the right
      operand are. */
  lemma LeftStopWins<N>(A: Arith<N>, x: Expr, op: Op, y: Expr)
    requires Eval(A, x).Stopped?
    ensures Eval(A, Binary(BinaryExpr(x, op, y))) == Eval(A, x)
  {
  }

  /** Once the left operand has a value, a stop in the right operand
      propagates unchanged, whatever the operator is. */
  lemma RightStopWins<N>(A: Arith<N>, x: Expr, op: Op, y: Expr)
    requires Eval(A, x).Value? && Eval(A, y).Stopped?
    ensures Eval(A, Binary(BinaryExpr(x, op, y))) == Eval(A, y)
  {
  }

  /** With both operands evaluated, the five operators are the float64
      operations, the remainder taken on the truncated operands, and any
      other operator exits. */
  lemma BinaryOnValues<N>(A: Arith<N>, x: Expr, op: Op, y: Expr, a: N, b: N)
    requires Eval(A, x) == Value(a) && Eval(A, y) == Value(b)
    ensures op == Add ==> Eval(A, Binary(BinaryExpr(x, op, y))) == Value(A.add(a, b))
    ensures op == Sub ==> Eval(A, Binary(BinaryExpr(x, op, y))) == Value(A.sub(a, b))
    ensures op == Mul ==> Eval(A, Binary(BinaryExpr(x, op, y))) == Value(A.mul(a, b))
    ensures op == Quo ==> Eval(A, Binary(BinaryExpr(x, op, y))) == Value(A.quo(a, b))
    ensures op == Rem && A.trunc(b) != 0 ==>
              Eval(A, Binary(BinaryExpr(x, op, y))) == Value(A.ofInt(TruncRem(A.trunc(a), A.trunc(b))))
    ensures op == Rem && A.trunc(b) == 0 ==> Eval(A, Binary(BinaryExpr(x, op, y))) == Stopped(Panic)
    ensures !IsArithOp(op) ==> Eval(A, Binary(BinaryExpr(x, op, y))) == Stopped(Exit1)
  {
  }

  /** The remainder sees its operands only through their truncations, so
      operands that truncate alike (7.9 and 7, say) give the same outcome. */
  lemma RemSeesTruncations<N>(A: Arith<N>, x: Expr, y: Expr, x': Expr, y': Expr)
    requires Eval(A, x).Value? && Eval(A, y).Value?
    requires Eval(A, x').Value? && Eval(A, y').Value?
    requires A.trunc(Eval(A, x).v) == A.trunc(Eval(A, x').v)
    requires A.trunc(Eval(A, y).v) == A.trunc(Eval(A, y').v)
    ensures Eval(A, Binary(BinaryExpr(x, Rem, y))) == Eval(A, Binary(BinaryExpr(x', Rem, y')))
  {
  }

  /** Without a remainder nothing can panic, so a tree evaluates to a value
      exactly when every node in it is supported, and exits otherwise. */
  lemma RemFreeOutcome<N>(A: Arith<N>, e: Expr)
    requires !HasRem(e)
    ensures Eval(A, e).Value? <==> Supported(e)
    ensures Eval(A, e) == Stopped(Exit1) <==> !Supported(e)
  {
    var r := Eval(A, e);
    match r
    case Value(_) =>
    case Stopped(Exit1) =>
    case Stopped(Panic) =>
  }
}

=== FILE: calc_evaluate.dfy ===
/**
 `Evaluate`: parse one expression string, evaluate it, and decide how the
 result is displayed. The parser (`go/parser.ParseExpr`) is an oracle held
 in the environment, since its grammar is Go's, not the calculator's.
 */
module CalcEvaluate {
  import opened CalcAst
  import opened CalcEval

  datatype Env<!N> = Env(arith: Arith<N>, parse: string -> Option<Expr>)

  /** How a result is printed: `%d` of its integer conversion, or `%f` of
      the float itself. */
  datatype Display<N> = IntText(n: int) | FixedText(v: N)

  /** The display test `res == float64(int(res))`. */
  predicate IsIntegral<N(==)>(A: Arith<N>, v: N) {
    A.ofInt(A.trunc(v)) == v
  }

  /** A value that survives the round trip through `int` is printed as that
      integer, whose conversion back is the value itself; any other value is
      printed in fixed-point notation. */
  function Show<N(==)>(A: Arith<N>, v: N): (d: Display<N>)
    ensures d.IntText? <==> IsIntegral(A, v)
    ensures d.IntText? ==> A.ofInt(d.n) == v && d.n == A.trunc(v)
    ensures d.FixedText? ==> d.v == v
  {
    var n := A.trunc(v);
    if A.ofInt(n) == v then IntText(n) else FixedText(v)
  }

  /** What one call of `Evaluate` does: prints a result and returns nil,
      returns a parse error naming the input, or never returns because the
      evaluator exited or panicked. */
  datatype Evaluated<N> = Printed(shown: Display<N>) | ParseFailed(input: string) | Halted(stop: Stop)

  function Evaluate<N(==)>(env: Env<N>, input: string): (r: Evaluated<N>)
    ensures r.ParseFailed? <==> env.parse(input).None?
    ensures r.ParseFailed? ==> r.input == input
    ensures r.Halted? ==> env.parse(input).Some? && Eval(env.arith, env.parse(input).value) == Stopped(r.stop)
    ensures r.Printed? ==>
              && env.parse(input).Some?
              && Eval(env.arith, env.parse(input).value).Value?
              && r.shown == Show(env.arith, Eval(env.arith, env.parse(input).value).v)
  {
    match env.parse(input)
    case None => ParseFailed(input)
    case Some(e) =>
      match Eval(env.arith, e)
      case Value(v) => Printed(Show(env.arith, v))
      case Stopped(s) => Halted(s)
  }

  /** Once the input parses, `Evaluate` never returns an error: either it
      prints the result or the process stops inside the evaluator. A tree the
      evaluator fully supports and that holds no remainder always prints. */
  lemma ParsedNeverErrs<N>(env: Env<N>, input: string, e: Expr)
    requires env.parse(input) == Some(e)
    ensures !Evaluate(env, input).ParseFailed?
    ensures Supported(e) && !HasRem(e) ==> Evaluate(env, input).Printed?
    ensures Evaluate(env, input).Printed? ==> Supported(e)
  {
    if !HasRem(e) {
      RemFreeOutcome(env.arith, e);
    }
  }
}

=== FILE: calc_examples.dfy ===
/**
 The calculator's behaviour on concrete inputs, over an exact
 (real-number) instance of the float64 operations. Division and literal
 conversion stay parameters: real division is undefined at zero, where
 float64 gives an infinity or NaN, and `strconv.ParseFloat` is outside the
 model. Each example fixes the trees `go/parser` produces for its inputs.
 */
module CalcExamples {
  import opened CalcAst
  import opened GoNumeric
  import opened CalcEval
  import opened CalcEvaluate
  import opened CalcSession
  import opened GoStrings

  function RealArith(literal: string -> real, quo: (real, real) -> real): Arith<real> {
    Arith(literal, (a, b) => a + b, (a, b) => a - b, (a, b) => a * b, quo, Trunc, n => n as real)
  }

  function Num(text: string): Expr {
    BasicLit(if '.' in text then Float else Int, text)
  }

  function Bin(x: Expr, op: Op, y: Expr): Expr {
    Binary(BinaryExpr(x, op, y))
  }

  /** Truncation goes toward zero and the remainder follows the dividend. */
  lemma TruncatedRemainderExamples()
    ensures Trunc(7.9) == 7 && Trunc(-7.9) == -7
    ensures TruncRem(7, 2) == 1 && TruncRem(-7, 2) == -1 && TruncRem(7, -2) == 1
  {
  }

  /** `7.9 % 2` is `7 % 2`: the fraction is dropped before the remainder. */
  lemma RemainderDropsFraction(literal: string -> real, quo: (real, real) -> real)
    requires literal("7.9") == 7.9 && literal("7") == 7.0 && literal("2") == 2.0
    ensures Eval(RealArith(literal, quo), Bin(Num("7.9"), Rem, Num("2"))) == Value(1.0)
    ensures Eval(RealArith(literal, quo), Bin(Num("7"), Rem, Num("2"))) == Value(1.0)
  {
    assert Trunc(7.9) == 7 && Trunc(7.0) == 7 && Trunc(2.0) == 2;
  }

  /** `2 + 3 * 4` is 14 and `(2 + 3) * 4` is 20, printed as integers. */
  lemma PrecedenceExamples(literal: string -> real, quo: (real, real) -> real)
    requires literal("2") == 2.0 && literal("3") == 3.0 && literal("4") == 4.0
    ensures Eval(RealArith(literal, quo), Bin(Num("2"), Add, Bin(Num("3"), Mul, Num("4")))) == Value(14.0)
    ensures Eval(RealArith(literal, quo), Bin(Paren(Bin(Num("2"), Add, Num("3"))), Mul, Num("4"))) == Value(20.0)
    ensures Show(RealArith(literal, quo), 14.0) == IntText(14)
  {
    assert Trunc(14.0) == 14;
  }

  /** `6 / 3` prints as `2`; `1 / 3` prints in fixed-point notation. */
  lemma DisplayExamples(env: Env<real>)
    requires env.arith == RealArith(env.arith.literal, env.arith.quo)
    requires env.arith.literal("6") == 6.0 && env.arith.literal("3") == 3.0 && env.arith.literal("1") == 1.0
    requires env.arith.quo(6.0, 3.0) == 2.0 && env.arith.quo(1.0, 3.0) == 1.0 / 3.0
    requires env.parse("6 / 3") == Some(Bin(Num("6"), Quo, Num("3")))
    requires env.parse("1 / 3") == Some(Bin(Num("1"), Quo, Num("3")))
    ensures Evaluate(env, "6 / 3") == Printed(IntText(2))
    ensures Evaluate(env, "1 / 3") == Printed(FixedText(1.0 / 3.0))
  {
    assert Eval(env.arith, Bin(Num("6"), Quo, Num("3"))) == Value(2.0);
    assert Eval(env.arith, Bin(Num("1"), Quo, Num("3"))) == Value(1.0 / 3.0);
    assert Trunc(2.0) == 2;
    assert Trunc(1.0 / 3.0) == 0;
  }

  /** The help text's `sysbox calc '1 / 3 * 9'`: one quoted argument, which
      Go parses as `(1 / 3) * 9`, prints 3 and returns 0. */
  lemma HelpExample(env: Env<real>, lines: seq<string>)
    requires env.arith == RealArith(env.arith.literal, env.arith.quo)
    requires env.arith.literal("1") == 1.0 && env.arith.literal("3") == 3.0 && env.arith.literal("9") == 9.0
    requires env.arith.quo(1.0, 3.0) == 1.0 / 3.0
    requires env.parse("1 / 3 * 9 ") == Some(Bin(Bin(Num("1"), Quo, Num("3")), Mul, Num("9")))
    ensures Execute(env, ["1 / 3 * 9"], lines) == Batch("1 / 3 * 9 ", Returned(0), [Shown(IntText(3))])
  {
    assert Spaced(["1 / 3 * 9"]) == "1 / 3 * 9 " by {
      assert Spaced(["1 / 3 * 9"][1..]) == "";
    }
    assert Eval(env.arith, Bin(Bin(Num("1"), Quo, Num("3")), Mul, Num("9"))) == Value(3.0);
    assert Trunc(3.0) == 3;
  }

  /** `calc 3 + 3` joins its arguments into `3 + 3 ` and prints 6. */
  lemma BatchExample(env: Env<real>, lines: seq<string>)
    requires env.arith == RealArith(env.arith.literal, env.arith.quo)
    requires env.arith.literal("3") == 3.0
    requires env.parse("3 + 3 ") == Some(Bin(Num("3"), Add, Num("3")))
    ensures Execute(env, ["3", "+", "3"], lines) == Batch("3 + 3 ", Returned(0), [Shown(IntText(6))])
  {
    assert Spaced(["3", "+", "3"]) == "3 + 3 " by {
      assert Spaced(["3", "+", "3"][1..][1..][1..]) == "";
    }
    assert Trunc(6.0) == 6;
  }

  /** A single empty argument still selects batch mode, on the input " ". */
  lemma EmptyArgumentIsBatch<N>(env: Env<N>, lines: seq<string>)
    ensures Execute(env, [""], lines).Batch?
    ensures Execute(env, [""], lines).input == " "
  {
    assert Spaced([""]) == "" + " " + Spaced([]);
  }

  lemma SumLineEvaluates(env: Env<real>)
    requires env.arith == RealArith(env.arith.literal, env.arith.quo)
    requires env.arith.literal("1") == 1.0
    requires env.parse("1 + 1") == Some(Bin(Num("1"), Add, Num("1")))
    ensures Evaluate(env, "1 + 1") == Printed(IntText(2))
  {
    assert Eval(env.arith, Bin(Num("1"), Add, Num("1"))) == Value(2.0);
    assert Trunc(2.0) == 2;
  }

  lemma SumLineStep(env: Env<real>)
    requires env.arith == RealArith(env.arith.literal, env.arith.quo)
    requires env.arith.literal("1") == 1.0
    requires env.parse("1 + 1") == Some(Bin(Num("1"), Add, Num("1")))
    ensures Step(env, "1 + 1") == Next(IntText(2))
  {
    TrimSpaceKeepsTrimmed("1 + 1");
    assert !IsQuitCommand("1 + 1") by {
      assert "1 + 1"[..4] != "exit" && "1 + 1"[..4] != "quit";
    }
    SumLineEvaluates(env);
  }

  lemma BlankAndExitSteps<N>(env: Env<N>)
    ensures Step(env, "") == Skip
    ensures Step(env, "exit now") == Quit
  {
    TrimSpaceKeepsTrimmed("");
    TrimSpaceKeepsTrimmed("exit now");
    assert "exit now"[..4] == "exit";
  }

  /** Trimming drops white space on either side and keeps inner spaces. */
  lemma TrimExamples()
    ensures TrimSpace(" quit") == "quit"
    ensures TrimSpace("\texit now ") == "exit now"
  {
    TrimLeading();
    TrimBoth();
  }

  lemma TrimLeading()
    ensures TrimSpace(" quit") == "quit"
  {
    assert LeadingSpaces(" quit") == 1 by {
      assert " quit"[1..] == "quit";
    }
    assert TrailingSpaces(" quit"[1..]) == 0 by {
      assert " quit"[1..] == "quit";
    }
  }

  lemma TrimBoth()
    ensures TrimSpace("\texit now ") == "exit now"
  {
    var t := "\texit now ";
    assert LeadingSpaces(t) == 1 by {
      assert t[1..] == "exit now ";
    }
    assert TrailingSpaces(t[1..]) == 1 by {
      assert t[1..][..|t| - 2] == "exit now";
    }
    assert t[1..|t| - 1] == "exit now";
  }

  /** The quit test runs on the trimmed line, so surrounding white space
      does not stop a line from quitting. */
  lemma TrimmedQuitSteps<N>(env: Env<N>)
    ensures Step(env, " quit") == Quit
    ensures Step(env, "\texit now ") == Quit
  {
    TrimExamples();
    assert "quit"[..4] == "quit" && "exit now"[..4] == "exit";
  }

  /** Lines `1 + 1`, an empty line and `exit now`: one result is printed,
      three prompts are shown, and the loop returns 0 at the third line. */
  lemma InteractiveExample(env: Env<real>)
    requires env.arith == RealArith(env.arith.literal, env.arith.quo)
    requires env.arith.literal("1") == 1.0
    requires env.parse("1 + 1") == Some(Bin(Num("1"), Add, Num("1")))
    ensures Repl(env, ["1 + 1", "", "exit now"]) == Session(Returned(0), Some(2), 1, 3, [Shown(IntText(2))])
  {
    ThreeActions(env, "1 + 1", "", "exit now");
    SumLineStep(env);
    BlankAndExitSteps(env);
    ExampleLoop();
  }

  lemma ExampleLoop()
    ensures Loop<real>([Next(IntText(2)), Skip, Quit]) == Session(Returned(0), Some(2), 1, 3, [Shown(IntText(2))])
  {
    var tail: seq<Action<real>> := [Skip, Quit];
    assert tail[1..] == [Quit];
    assert Loop(tail) == Session(Returned(0), Some(1), 0, 2, []);
    assert [Next(IntText(2))] + tail == [Next(IntText(2)), Skip, Quit];
  }

  lemma ThreeActions<N>(env: Env<N>, a: string, b: string, c: string)
    ensures Actions(env, [a, b, c]) == [Step(env, a), Step(env, b), Step(env, c)]
  {
    var acts := Actions(env, [a, b, c]);
    assert acts[0] == Step(env, a) && acts[1] == Step(env, b) && acts[2] == Step(env, c);
  }

  /** The first line that fails to parse ends the loop with status 1; the
      line after it is never read. */
  lemma ParseErrorEndsLoop<N>(env: Env<N>, rest: seq<string>)
    requires env.parse("1 +") == None
    ensures Repl(env, ["1 +"] + rest) == Session(Returned(1), Some(0), 1, 1, [ErrorLine("1 +")])
  {
    TrimSpaceKeepsTrimmed("1 +");
    assert !IsQuitCommand("1 +");
    assert (["1 +"] + rest)[0] == "1 +";
  }

  /** Go parses `-3` as a unary expression, which the evaluator does not
      handle: the whole process exits with status 1 rather than reporting an
      error and reading the next line. */
  lemma UnaryMinusExits<N>(env: Env<N>, rest: seq<string>)
    requires env.parse("-3 + 2") == Some(Bin(OtherNode("UnaryExpr"), Add, Num("2")))
    ensures Repl(env, ["-3 + 2"] + rest).status == Terminated(Exit1)
    ensures Repl(env, ["-3 + 2"] + rest).stoppedAt == Some(0)
    ensures Repl(env, ["-3 + 2"] + rest).out == [Diagnostic]
  {
    TrimSpaceKeepsTrimmed("-3 + 2");
    assert !IsQuitCommand("-3 + 2");
    assert (["-3 + 2"] + rest)[0] == "-3 + 2";
  }
}

=== FILE: calc_session.dfy ===
/**
 `Execute`, the calculator subcommand's driver. With command-line
 arguments it joins them and evaluates the result once (batch mode);
 with none it runs a read-eval loop over the lines of standard input,
 modelled here as a pure fold over the sequence of those lines.
 */
module CalcSession {
  import opened CalcAst
  import opened CalcEval
  import opened CalcEvaluate
  import opened GoStrings

  // ---------------------------------------------------------------------
  // Joining the arguments

  /** Every argument followed by exactly one space. */
  function Spaced(args: seq<string>): (s: string)
    ensures s == [] <==> args == []
    ensures args != [] ==> s[|s| - 1] == ' '
  {
    if args == [] then "" else args[0] + " " + Spaced(args[1..])
  }

  lemma {:induction false} SpacedSnoc(args: seq<string>, a: string)
    ensures Spaced(args + [a]) == Spaced(args) + a + " "
    decreases |args|
  {
    if args == [] {
      assert args + [a] == [a];
      assert Spaced([a][1..]) == "";
    } else {
      calc {
        Spaced(args + [a]);
        { assert (args + [a])[1..] == args[1..] + [a]; }
        args[0] + " " + Spaced(args[1..] + [a]);
        { SpacedSnoc(args[1..], a); }
        args[0] + " " + (Spaced(args[1..]) + a + " ");
      }
    }
  }

  /** The loop that builds the batch input: append each argument, then a
      space. */
  method JoinArgs(args: seq<string>) returns (input: string)
    ensures input == Spaced(args)
  {
    input := "";
    var i := 0;
    while i < |args|
      invariant i <= |args|
      invariant input == Spaced(args[..i])
    {
      SpacedSnoc(args[..i], args[i]);
      assert args[..i + 1] == args[..i] + [args[i]];
      input := input + args[i];
      input := input + " ";
      i := i + 1;
    }
    assert args[..i] == args;
  }

  /** Index of the first space in `s`, or `|s|` if there is none. */
  function SpaceIndex(s: string): (i: nat)
    ensures i <= |s|
    ensures i < |s| ==> s[i] == ' '
    ensures forall j :: 0 <= j < i ==> s[j] != ' '
  {
    if s == [] || s[0] == ' ' then 0 else 1 + SpaceIndex(s[1..])
  }

  lemma {:induction false} SpaceIndexAfter(a: string, rest: string)
    requires ' ' !in a
    ensures SpaceIndex(a + " " + rest) == |a|
    decreases |a|
  {
    var s := a + " " + rest;
    if a != [] {
      assert s[0] == a[0] && a[0] in a;
      assert s[1..] == a[1..] + " " + rest;
      assert forall c :: c in a[1..] ==> c in a;
      SpaceIndexAfter(a[1..], rest);
    }
  }

  /** The pieces of `s` that each end at a space. */
  function Fields(s: string): seq<string>
    decreases |s|
  {
    if s == [] then []
    else
      var i := SpaceIndex(s);
      if i == |s| then [s] else [s[..i]] + Fields(s[i + 1..])
  }

  /** A space-free piece followed by a space is split off whole. */
  lemma FieldsCons(a: string, rest: string)
    requires ' ' !in a
    ensures Fields(a + " " + rest) == [a] + Fields(rest)
  {
    var s := a + " " + rest;
    SpaceIndexAfter(a, rest);
    assert s[|a|] == ' ';
    assert s[..|a|] == a;
    assert s[|a| + 1..] == rest;
  }

  /** Joining loses nothing when no argument holds a space: splitting the
      joined input at its spaces gives the arguments back. */
  lemma {:induction false} FieldsOfSpaced(args: seq<string>)
    requires forall a :: a in args ==> ' ' !in a
    ensures Fields(Spaced(args)) == args
    decreases |args|
  {
    if args != [] {
      assert args[0] in args;
      FieldsCons(args[0], Spaced(args[1..]));
      assert forall b :: b in args[1..] ==> b in args;
      FieldsOfSpaced(args[1..]);
    }
  }

  // ---------------------------------------------------------------------
  // The read-eval loop

  predicate IsQuitCommand(t: string) {
    HasPrefix(t, "exit") || HasPrefix(t, "quit")
  }

  /** Only the first four characters decide: whatever follows `exit` or
      `quit` still quits. */
  lemma QuitCommandExtends(t: string, more: string)
    requires IsQuitCommand(t)
    ensures IsQuitCommand(t + more)
  {
    assert (t + more)[..4] == t[..4];
  }

  /** The test is a case-sensitive test of the first four characters. */
  lemma QuitCommandExamples()
    ensures IsQuitCommand("exit") && IsQuitCommand("exiting") && IsQuitCommand("quit now")
    ensures !IsQuitCommand("Exit") && !IsQuitCommand("ex") && !IsQuitCommand("qui")
  {
    assert "exiting"[..4] == "exit";
    assert "quit now"[..4] == "quit";
    assert "Exit"[..4][0] == 'E';
  }

  /** The loop body calls `Evaluate` on a line. */
  predicate Evaluates(raw: string) {
    var t := TrimSpace(raw);
    !IsQuitCommand(t) && t != ""
  }

  /** What the loop does with one line of input. */
  datatype Action<N> =
    | Quit
    | Skip
    | Next(shown: Display<N>)
    | Fail(input: string)
    | Abort(stop: Stop)

  /** The line ends the loop. */
  predicate Ends<N>(a: Action<N>) {
    a.Quit? || a.Fail? || a.Abort?
  }

  /** The loop body: trim the line; an `exit` or `quit` prefix ends the loop
      before anything else is looked at; an empty line is skipped; any other
      line is evaluated. */
  function Step<N(==)>(env: Env<N>, raw: string): (a: Action<N>)
    ensures a.Quit? <==> IsQuitCommand(TrimSpace(raw))
    ensures a.Skip? <==> !IsQuitCommand(TrimSpace(raw)) && AllSpace(raw)
    ensures CallsEvaluate(a) <==> Evaluates(raw)
    ensures a.Fail? ==> a.input == TrimSpace(raw) && env.parse(a.input).None?
    ensures a.Next? ==> Evaluate(env, TrimSpace(raw)) == Printed(a.shown)
    ensures a.Abort? ==> Evaluate(env, TrimSpace(raw)) == Halted(a.stop)
  {
    var t := TrimSpace(raw);
    if IsQuitCommand(t) then Quit
    else if t == "" then Skip
    else
      match Evaluate(env, t)
      case Printed(d) => Next(d)
      case ParseFailed(input) => Fail(input)
      case Halted(s) => Abort(s)
  }

  /** How `Execute` finishes: by returning an exit status, or by the
      evaluator stopping the process. */
  datatype Status = Returned(code: int) | Terminated(stop: Stop)

  /** How the loop's end follows from the line that ended it. */
  function EndStatus<N>(a: Action<N>): (s: Status)
    requires Ends(a)
    ensures s == Returned(0) <==> a.Quit?
    ensures s == Returned(1) <==> a.Fail?
    ensures s.Terminated? <==> a.Abort?
    ensures a.Abort? ==> s == Terminated(a.stop)
  {
    match a
    case Quit => Returned(0)
    case Fail(_) => Returned(1)
    case Abort(s) => Terminated(s)
  }

  /** A line printed to standard output: a result, the
      `ERROR: failed to parse '<input>': ...` message, or the evaluator's
      diagnostic (`unknown literal type`, `unknown ast.Node`, `Unknown
      operator`) just before it calls `os.Exit(1)`. */
  datatype Output<N> = Shown(d: Display<N>) | ErrorLine(input: string) | Diagnostic

  /** What the evaluator prints as it stops the process: the one-line
      diagnostic before `os.Exit(1)`; a panic prints nothing to standard
      output. */
  function StopLines<N>(s: Stop): seq<Output<N>> {
    if s == Exit1 then [Diagnostic] else []
  }

  /** A finished read-eval loop: how it ended, the index of the line that
      ended it (none if the input ran out), how many lines were handed to
      `Evaluate`, how many `calc> ` prompts were shown, and what was printed. */
  datatype Session<N> = Session(
    status: Status,
    stoppedAt: Option<nat>,
    evaluated: nat,
    prompts: nat,
    out: seq<Output<N>>)

  /** The number of lines, out of `n`, that the loop read. */
  function Consumed<N>(r: Session<N>, n: nat): nat {
    if r.stoppedAt.Some? then r.stoppedAt.value + 1 else n
  }

  /** The line was handed to `Evaluate`. */
  predicate CallsEvaluate<N>(a: Action<N>) {
    a.Next? || a.Fail? || a.Abort?
  }

  /** The session of a loop ended by its first line. */
  function Finish<N>(a: Action<N>): Session<N>
    requires Ends(a)
  {
    Session(
      EndStatus(a),
      Some(0),
      if a.Quit? then 0 else 1,
      1,
      if a.Fail? then [ErrorLine(a.input)] else if a.Abort? then StopLines(a.stop) else [])
  }

  /** A line that does not end the loop, consumed in front of session `r`. */
  function Continue<N>(r: Session<N>, a: Action<N>): Session<N>
    requires !Ends(a)
  {
    Session(
      r.status,
      if r.stoppedAt.Some? then Some(r.stoppedAt.value + 1) else None,
      r.evaluated + (if a.Next? then 1 else 0),
      r.prompts + 1,
      (if a.Next? then [Shown(a.shown)] else []) + r.out)
  }

  /** The loop over the actions of successive lines, entered just after a
      prompt has been shown. One more prompt follows every line that does
      not end the loop. */
  function Loop<N>(acts: seq<Action<N>>): (r: Session<N>)
    ensures r.stoppedAt.None? ==> r.status == Returned(0) && r.prompts == |acts| + 1
    ensures r.stoppedAt.Some? ==> r.stoppedAt.value < |acts| && r.prompts == r.stoppedAt.value + 1
    ensures r.status.Returned? ==> r.status.code == 0 || r.status.code == 1
    ensures |r.out| + (if r.status == Terminated(Panic) then 1 else 0) == r.evaluated
    decreases |acts|
  {
    if acts == [] then Session(Returned(0), None, 0, 1, [])
    else if Ends(acts[0]) then Finish(acts[0])
    else Continue(Loop(acts[1..]), acts[0])
  }

  /** The action the loop body takes on each line. */
  function Actions<N(==)>(env: Env<N>, lines: seq<string>): (acts: seq<Action<N>>)
    ensures |acts| == |lines|
    ensures forall i :: 0 <= i < |lines| ==> acts[i] == Step(env, lines[i])
  {
    seq(|lines|, i requires 0 <= i < |lines| => Step(env, lines[i]))
  }

  /** The read-eval loop over the lines of standard input. */
  function Repl<N(==)>(env: Env<N>, lines: seq<string>): (r: Session<N>)
    ensures r.stoppedAt.None? ==> r.status == Returned(0) && r.prompts == |lines| + 1
    ensures r.stoppedAt.Some? ==> r.stoppedAt.value < |lines| && r.prompts == r.stoppedAt.value + 1
    ensures r.status.Returned? ==> r.status.code == 0 || r.status.code == 1
    ensures |r.out| + (if r.status == Terminated(Panic) then 1 else 0) == r.evaluated
  {
    Loop(Actions(env, lines))
  }

  /** None of the first `k` actions ends the loop. */
  predicate NoEndBefore<N>(acts: seq<Action<N>>, k: nat)
    requires k <= |acts|
  {
    forall i :: 0 <= i < k ==> !Ends(acts[i])
  }

  /** The loop ends at the first action that ends it, with the status that
      action calls for, and runs to the end (returning 0) exactly when no
      action ends it. */
  lemma {:induction false} LoopStopsAtFirstEnd<N>(acts: seq<Action<N>>)
    ensures Loop(acts).stoppedAt.None? <==> NoEndBefore(acts, |acts|)
    ensures Loop(acts).stoppedAt.Some? ==>
              var k := Loop(acts).stoppedAt.value;
              && k < |acts|
              && Ends(acts[k])
              && NoEndBefore(acts, k)
              && Loop(acts).status == EndStatus(acts[k])
    decreases |acts|
  {
    if acts != [] && !Ends(acts[0]) {
      LoopStopsAtFirstEnd(acts[1..]);
      var r' := Loop(acts[1..]);
      if r'.stoppedAt.Some? {
        var k := r'.stoppedAt.value;
        assert acts[k + 1] == acts[1..][k];
        assert !NoEndBefore(acts, |acts|) by {
          assert Ends(acts[k + 1]);
        }
      }
    }
  }

  /** The same, read on the input lines. */
  lemma ReplStopsAtFirstEnd<N>(env: Env<N>, lines: seq<string>)
    ensures Repl(env, lines).stoppedAt.None? <==> forall i :: 0 <= i < |lines| ==> !Ends(Step(env, lines[i]))
    ensures Repl(env, lines).stoppedAt.Some? ==>
              var k := Repl(env, lines).stoppedAt.value;
              && k < |lines|
              && Ends(Step(env, lines[k]))
              && (forall i :: 0 <= i < k ==> !Ends(Step(env, lines[i])))
              && Repl(env, lines).status == EndStatus(Step(env, lines[k]))
  {
    LoopStopsAtFirstEnd(Actions(env, lines));
  }

  /** The number of actions that hand their line to `Evaluate`. */
  function CountCalls<N>(acts: seq<Action<N>>): nat {
    if acts == [] then 0
    else (if CallsEvaluate(acts[0]) then 1 else 0) + CountCalls(acts[1..])
  }

  /** The loop evaluates exactly the consumed lines whose action evaluates. */
  lemma {:induction false} LoopEvaluatedCount<N>(acts: seq<Action<N>>)
    ensures Loop(acts).evaluated == CountCalls(acts[..Consumed(Loop(acts), |acts|)])
    decreases |acts|
  {
    if acts != [] {
      if Ends(acts[0]) {
        assert acts[..1] == [acts[0]];
        assert CountCalls([acts[0]][1..]) == 0;
      } else {
        LoopEvaluatedCount(acts[1..]);
        var c := Consumed(Loop(acts[1..]), |acts| - 1);
        assert acts[..c + 1][1..] == acts[1..][..c];
      }
    }
  }

  /** The number of lines among `lines` that the loop body would evaluate. */
  function CountEvaluating(lines: seq<string>): nat {
    if lines == [] then 0
    else (if Evaluates(lines[0]) then 1 else 0) + CountEvaluating(lines[1..])
  }

  lemma {:induction false} CountActions<N>(env: Env<N>, lines: seq<string>)
    ensures CountCalls(Actions(env, lines)) == CountEvaluating(lines)
    decreases |lines|
  {
    if lines != [] {
      assert Actions(env, lines)[1..] == Actions(env, lines[1..]);
      CountActions(env, lines[1..]);
    }
  }

  /** The loop hands to `Evaluate` exactly the lines it consumes that are
      neither blank nor a quit command. */
  lemma ReplEvaluatedCount<N>(env: Env<N>, lines: seq<string>)
    ensures Repl(env, lines).evaluated == CountEvaluating(lines[..Consumed(Repl(env, lines), |lines|)])
  {
    var acts := Actions(env, lines);
    LoopEvaluatedCount(acts);
    var c := Consumed(Loop(acts), |acts|);
    assert acts[..c] == Actions(env, lines[..c]);
    CountActions(env, lines[..c]);
  }

  /** What the given actions print, in order: the display of each printed
      result and the error line of a parse failure. */
  function Outputs<N>(acts: seq<Action<N>>): seq<Output<N>> {
    if acts == [] then []
    else
      var first := match acts[0]
        case Next(d) => [Shown(d)]
        case Fail(t) => [ErrorLine(t)]
        case Abort(s) => StopLines(s)
        case _ => [];
      first + Outputs(acts[1..])
  }

  /** The loop prints exactly what its consumed actions print, in the order
      of the lines. */
  lemma {:induction false} LoopOut<N>(acts: seq<Action<N>>)
    ensures Loop(acts).out == Outputs(acts[..Consumed(Loop(acts), |acts|)])
    decreases |acts|
  {
    if acts != [] {
      if Ends(acts[0]) {
        assert acts[..1] == [acts[0]];
        assert Outputs([acts[0]][1..]) == [];
      } else {
        LoopOut(acts[1..]);
        var c := Consumed(Loop(acts[1..]), |acts| - 1);
        assert acts[..c + 1][1..] == acts[1..][..c];
      }
    }
  }

  /** The same, read on the input lines: the output is that of the steps of
      the consumed lines. */
  lemma ReplOut<N>(env: Env<N>, lines: seq<string>)
    ensures Repl(env, lines).out == Outputs(Actions(env, lines[..Consumed(Repl(env, lines), |lines|)]))
  {
    var acts := Actions(env, lines);
    LoopOut(acts);
    var c := Consumed(Loop(acts), |acts|);
    assert acts[..c] == Actions(env, lines[..c]);
  }

  /** Actions after the one that ends the loop are never looked at. */
  lemma {:induction false} LoopIgnoresRest<N>(acts: seq<Action<N>>, more: seq<Action<N>>)
    requires Loop(acts).stoppedAt.Some?
    ensures Loop(acts + more) == Loop(acts)
    decreases |acts|
  {
    var all := acts + more;
    assert all[0] == acts[0];
    if !Ends(acts[0]) {
      assert all[1..] == acts[1..] + more;
      LoopIgnoresRest(acts[1..], more);
    }
  }

  lemma ActionsAppend<N>(env: Env<N>, lines: seq<string>, more: seq<string>)
    ensures Actions(env, lines + more) == Actions(env, lines) + Actions(env, more)
  {
    var all := lines + more;
    assert forall i :: 0 <= i < |lines| ==> all[i] == lines[i];
    assert forall i :: |lines| <= i < |all| ==> all[i] == more[i - |lines|];
  }

  /** Lines after the one that ends the loop are never read: appending input
      to a session that has ended changes nothing. */
  lemma ReplIgnoresRest<N>(env: Env<N>, lines: seq<string>, more: seq<string>)
    requires Repl(env, lines).stoppedAt.Some?
    ensures Repl(env, lines + more) == Repl(env, lines)
  {
    ActionsAppend(env, lines, more);
    LoopIgnoresRest(Actions(env, lines), Actions(env, more));
  }

  // ---------------------------------------------------------------------
  // Execute

  datatype Run<N> =
    | Batch(input: string, status: Status, out: seq<Output<N>>)
    | Interactive(session: Session<N>)

  /** `Execute`: batch mode exactly when the joined input is non-empty,
      which is exactly when there is at least one argument (even an empty
      one); otherwise the loop runs over the lines of standard input. */
  function Execute<N(==)>(env: Env<N>, args: seq<string>, lines: seq<string>): (r: Run<N>)
    ensures r.Batch? <==> args != []
    ensures r.Batch? ==> r.input == Spaced(args)
    ensures r.Batch? ==> (r.status == Returned(1) <==> env.parse(r.input).None?)
    ensures r.Batch? ==> (r.status == Returned(0) <==> Evaluate(env, r.input).Printed?)
    ensures r.Batch? ==> (r.status.Terminated? <==> Evaluate(env, r.input).Halted?)
    ensures r.Batch? && r.status.Returned? ==> r.status.code == 0 || r.status.code == 1
    ensures r.Batch? && Evaluate(env, r.input).Printed? ==> r.out == [Shown(Evaluate(env, r.input).shown)]
    ensures r.Batch? && Evaluate(env, r.input).ParseFailed? ==> r.out == [ErrorLine(r.input)]
    ensures r.Batch? && Evaluate(env, r.input).Halted? ==>
              && r.status == Terminated(Evaluate(env, r.input).stop)
              && r.out == (if r.status.stop == Exit1 then [Diagnostic] else [])
    ensures r.Interactive? ==> r.session == Repl(env, lines)
  {
    var input := Spaced(args);
    if |input| > 0 then
      match Evaluate(env, input)
      case Printed(d) => Batch(input, Returned(0), [Shown(d)])
      case ParseFailed(_) => Batch(input, Returned(1), [ErrorLine(input)])
      case Halted(s) => Batch(input, Terminated(s), StopLines(s))
    else
      Interactive(Repl(env, lines))
  }
}

=== FILE: go_numeric.dfy ===
/**
 Integer conversions and integer arithmetic as the Go language defines them.

 Go converts a floating-point value to an integer by discarding the fraction
 (rounding toward zero), and its integer `/` and `%` truncate toward zero as
 well, so the remainder takes the sign of the dividend. Dafny's own `/` and `%`
 are Euclidean (the remainder is never negative), so the Go operators are
 written out here.
 */
module GoNumeric {

  function Abs(n: int): (a: nat)
    ensures a == n || a == -n
  {
    if n < 0 then -n else n
  }

  /** Go's `int(x)` on a real value: drop the fractional part, rounding toward zero. */
  function Trunc(x: real): (n: int)
    ensures 0.0 <= x ==> n as real <= x < n as real + 1.0
    ensures x < 0.0 ==> n as real - 1.0 < x <= n as real
  {
    if 0.0 <= x then x.Floor else -((-x).Floor)
  }

  /** Go's integer quotient `a / b`, rounded toward zero. */
  function TruncDiv(a: int, b: int): (q: int)
    requires b != 0
    ensures Abs(q) * Abs(b) <= Abs(a) < (Abs(q) + 1) * Abs(b)
    ensures q != 0 ==> ((q < 0) <==> ((a < 0) != (b < 0)))
  {
    var q := Abs(a) / Abs(b);
    DivBounds(Abs(a), Abs(b));
    if (a < 0) != (b < 0) then -q else q
  }

  lemma DivBounds(x: nat, y: nat)
    requires y != 0
    ensures (x / y) * y <= x < (x / y + 1) * y
  {
    assert x == (x / y) * y + x % y;
    assert (x / y + 1) * y == (x / y) * y + y;
  }

  /** Go's integer remainder `a % b`: its sign follows the dividend. */
  function TruncRem(a: int, b: int): (r: int)
    requires b != 0
    ensures a == TruncDiv(a, b) * b + r
    ensures Abs(r) < Abs(b)
    ensures r != 0 ==> ((r < 0) <==> (a < 0))
  {
    var r := if 0 <= a then a % Abs(b) else -((-a) % Abs(b));
    DivisionLaw(a, b);
    r
  }

  lemma DivisionLaw(a: int, b: int)
    requires b != 0
    ensures a == TruncDiv(a, b) * b + (if 0 <= a then a % Abs(b) else -((-a) % Abs(b)))
  {
    var x, y := Abs(a), Abs(b);
    var qq: int, rr: int := x / y, x % y;
    assert x == qq * y + rr;
    SignFlips(qq, y);
    if (a < 0) != (b < 0) {
      assert TruncDiv(a, b) == -qq;
    } else {
      assert TruncDiv(a, b) == qq;
    }
  }

  lemma SignFlips(u: int, v: int)
    ensures (-u) * (-v) == u * v
    ensures (-u) * v == -(u * v)
    ensures u * (-v) == -(u * v)
  {
  }

  /** Go promises `a % b == a - (a / b) * b` for its truncated quotient; no
      other quotient and remainder satisfy that law with the remainder
      smaller than the divisor and signed like the dividend. */
  lemma TruncRemUnique(a: int, b: int, q: int, r: int)
    requires b != 0
    requires a == q * b + r
    requires Abs(r) < Abs(b)
    requires r != 0 ==> ((r < 0) <==> (a < 0))
    ensures r == TruncRem(a, b) && q == TruncDiv(a, b)
  {
    var q0, r0 := TruncDiv(a, b), TruncRem(a, b);
    var d := q - q0;
    MulSub(q, q0, b);
    assert d * b == r0 - r;
    // r and r0 share the dividend's sign, so they differ by less than |b|
    assert Abs(r0 - r) < Abs(b);
    if d != 0 {
      NonzeroMultiple(d, b);
      assert false;
    }
  }

  lemma MulSub(x: int, y: int, z: int)
    ensures (x - y) * z == x * z - y * z
  {
  }

  /** A non-zero multiple of `b` is at least `|b|` away from zero. */
  lemma NonzeroMultiple(d: int, b: int)
    requires d != 0
    ensures Abs(d * b) >= Abs(b)
  {
    AbsMul(d, b);
    AtLeastOnce(Abs(d), Abs(b));
  }

  lemma AtLeastOnce(n: nat, m: nat)
    requires n >= 1
    ensures n * m >= m
  {
    assert n * m == (n - 1) * m + m;
  }

  lemma AbsMul(x: int, y: int)
    ensures Abs(x * y) == Abs(x) * Abs(y)
  {
    if x < 0 && y < 0 {
      assert x * y == (-x) * (-y);
    } else if x < 0 {
      assert x * y == -((-x) * y);
    } else if y < 0 {
      assert x * y == -(x * (-y));
    }
  }
}

=== FILE: go_strings.dfy ===
/**
 The two functions of Go's `strings` package the calculator's read-eval loop
 relies on: `TrimSpace` and `HasPrefix`. A string is a sequence of Unicode
 code points; white space is what Go's `unicode.IsSpace` reports.
 */
module GoStrings {

  /** `unicode.IsSpace`: the Latin-1 spaces '\t', '\n', '\v', '\f', '\r',
      ' ', U+0085 and U+00A0, plus the other code points Unicode gives the
      White_Space property. */
  predicate IsSpace(c: char) {
    var n := c as int;
    || 0x09 <= n <= 0x0D
    || n == 0x20
    || n == 0x85
    || n == 0xA0
    || n == 0x1680
    || 0x2000 <= n <= 0x200A
    || n == 0x2028
    || n == 0x2029
    || n == 0x202F
    || n == 0x205F
    || n == 0x3000
  }

  predicate AllSpace(s: string) {
    forall i :: 0 <= i < |s| ==> IsSpace(s[i])
  }

  /** The number of white-space characters `s` starts with. */
  function LeadingSpaces(s: string): (k: nat)
    ensures k <= |s|
    ensures forall i :: 0 <= i < k ==> IsSpace(s[i])
    ensures k < |s| ==> !IsSpace(s[k])
  {
    if s == [] || !IsSpace(s[0]) then 0 else 1 + LeadingSpaces(s[1..])
  }

  /** The number of white-space characters `s` ends with. */
  function TrailingSpaces(s: string): (k: nat)
    ensures k <= |s|
    ensures forall i :: |s| - k <= i < |s| ==> IsSpace(s[i])
    ensures k < |s| ==> !IsSpace(s[|s| - k - 1])
  {
    if s == [] || !IsSpace(s[|s| - 1]) then 0 else 1 + TrailingSpaces(s[..|s| - 1])
  }

  /** `strings.TrimSpace`: `s` with all leading and trailing white space
      removed. */
  function TrimSpace(s: string): (t: string)
    ensures t == [] <==> AllSpace(s)
    ensures t != [] ==> !IsSpace(t[0]) && !IsSpace(t[|t| - 1])
  {
    var i := LeadingSpaces(s);
    var rest := s[i..];
    var j := i + (|rest| - TrailingSpaces(rest));
    assert i < |s| ==> !IsSpace(s[i]);
    s[i..j]
  }

  /** What `TrimSpace` removes is white space and only that: the result is
      a slice `s[i..j]` with nothing but white space before `i` and after
      `j`. */
  lemma TrimSpaceIsSlice(s: string)
    ensures exists i, j ::
              && 0 <= i <= j <= |s| && TrimSpace(s) == s[i..j]
              && AllSpace(s[..i]) && AllSpace(s[j..])
  {
    var i := LeadingSpaces(s);
    var rest := s[i..];
    var k := TrailingSpaces(rest);
    var j := i + (|rest| - k);
    assert AllSpace(s[j..]) by {
      assert forall n :: 0 <= n < |s| - j ==> s[j..][n] == rest[|rest| - k + n];
    }
    assert AllSpace(s[..i]);
    assert TrimSpace(s) == s[i..j];
  }

  /** A string that neither starts nor ends with white space is left as is. */
  lemma TrimSpaceKeepsTrimmed(s: string)
    requires s != [] ==> !IsSpace(s[0]) && !IsSpace(s[|s| - 1])
    ensures TrimSpace(s) == s
  {
    if s != [] {
      assert LeadingSpaces(s) == 0;
      assert TrailingSpaces(s) == 0;
    }
  }

  /** Trimming is idempotent: a trimmed line has nothing left to trim. */
  lemma TrimSpaceIdempotent(s: string)
    ensures TrimSpace(TrimSpace(s)) == TrimSpace(s)
  {
    TrimSpaceKeepsTrimmed(TrimSpace(s));
  }

  /** Below U+0100 white space is exactly the eight characters Go's
      `unicode.IsSpace` lists for Latin-1. */
  lemma Latin1Spaces(c: char)
    requires c as int < 0x100
    ensures IsSpace(c) <==> c in "\t\n\U{0B}\U{0C}\r \U{85}\U{A0}"
  {
  }

  /** `strings.HasPrefix`. */
  predicate HasPrefix(s: string, prefix: string) {
    |prefix| <= |s| && s[..|prefix|] == prefix
  }

  /** `s` has the prefix `p` exactly when it is `p` followed by something. */
  lemma HasPrefixSplit(s: string, p: string)
    ensures HasPrefix(s, p) <==> exists rest :: s == p + rest
  {
    if HasPrefix(s, p) {
      assert s == p + s[|p|..];
    }
  }
}
